=== FILE: README.md ===
# Blog views: a Dafny model

This project models the selection rules of the blog application's views
(`blog/views.py`): which posts the list shows (published only, optionally
narrowed to one tag), how a `page` query parameter is turned into a page of
three items, how the detail URL (year, month, day, slug) picks a post, which
comments are listed under it and when a submitted comment is saved, how
similar posts are ranked, and what the share view sends.

The database is an immutable sequence of records (`seq<Post>`, `seq<Tag>`,
`seq<Comment>`), in the order the model's default ordering would return them;
querysets become order-preserving filters; `get_object_or_404` becomes a
`Result` that is the single matching row, `NotFound` for none, or
`MultipleObjectsReturned` for several. Form validation is an abstract `valid`
flag on the submitted form; the HTTP method is `Request.Get` or
`Request.Submit(form)`; `send_mail` is represented by the `Mail` record it is
given; `build_absolute_uri(post.get_absolute_url())` is a parameter
`urlOf: Post -> string`.

Modules: `Base` (Option, Result, order-preserving `Filter`), `Blog` (entities,
the single-object lookup), `Pagination` (the paginator and the views' page
fallback), `PostList`, `PostDetail`, `Similar` (similar-post ranking) and
`PostShare`.

Two behaviours come from Django itself, whose source is not part of this model,
and are modelled as assumptions about it:

- The paginator rejects a page number below 1 with `EmptyPage`, so the views
  answer `page=0` or `page=-2` with the LAST page, exactly like a number past
  the end. The views' own comment only mentions numbers past the last page.
- `num_pages` is `ceil(max(1, n) / 3)`: no orphans, and an empty list still
  has one (empty) page.

Two facts about the code that are easy to miss:

- `get_object_or_404` raises Http404 only when no row matches; when several
  rows match it raises `MultipleObjectsReturned`, which is not a 404. The model
  keeps the two apart, and `DetailFoundIffAddressed` shows that under the
  slug's unique-for-date constraint the second case cannot arise.
- The list view narrows by tag only when the tag slug is truthy, so an empty
  slug lists every published post (`PostList.TagRequested`).

## Model

| member | source | states |
|---|---|---|
| Blog.PublishedPosts | blog/views.py:14 | a post is listed exactly when it is in the store and published |
| Blog.GetObjectOr404 | blog/views.py:19 | one matching row is the object; no row is NotFound; several rows raise MultipleObjectsReturned, not a 404 |
| Blog.GetOr404 | blog/views.py:97 | a found object is in the store and satisfies the query, and it is the only such object; NotFound exactly when nothing in the store satisfies the query |
| Blog.GetOr404Unique | blog/views.py:38-42 | when no two rows satisfy the query, the lookup succeeds exactly when some row satisfies it |
| Pagination.NumPages | blog/views.py:24 | at least one page; an empty list has one page; otherwise the page count is the least number of 3-item pages that holds every item |
| Pagination.ValidateNumber | blog/views.py:26-27 | a missing or non-integer token is PageNotAnInteger; an integer is accepted exactly when it lies in 1..num_pages; any other integer is EmptyPage |
| Pagination.PageOf | blog/views.py:27 | the page exists exactly when the number validates; it holds at most 3 items, the consecutive items starting at (k-1)*3; every page before the last is full, and no page of a non-empty list is empty |
| Pagination.NormalisedPage | blog/views.py:24-31 | missing or non-integer token gives page 1; a number past the last page gives the last page; a number below 1 gives the last page (Django assumption); a valid number gives that page; the result always is a real page in 1..num_pages with at most 3 items drawn from the list |
| Pagination.PagesUpToIsPrefix | blog/views.py:27 | pages 1..m together are exactly the first min(3m, n) items, in order |
| Pagination.PagesCoverAll | blog/views.py:24-31 | reading all pages in order gives back the whole list: the pages partition it |
| PostList.TagBySlug | blog/views.py:19 | a found tag is in the tag table and has the slug; NotFound exactly when no tag has it |
| PostList.ListedPosts | blog/views.py:14-22 | without a (non-empty) slug every published post is listed and no tag is set; with a slug, NotFound exactly when no tag has it; when the listing succeeds, the tag with that slug is set and a post is listed exactly when it is in the store, published and carries that tag (success for an existing slug is `ListedFoundIffTag`) |
| PostList.ListedFoundIffTag | blog/views.py:17-19 | with unique tag slugs, the listing succeeds exactly when no tag slug is given or some tag has the slug, so a requested existing tag is always set |
| PostList.PostListView | blog/views.py:12-34 | fails exactly when the listing fails; otherwise the page is the listing's normalised page and the tag is the listing's tag: page count ceil(max(1,n)/3) over the listed posts, page 1 for a missing or non-integer token, page k for a valid k, the last page for a number past it or below 1; every shown post is published and carries the requested tag |
| PostDetail.LookupDetail | blog/views.py:38-42 | a found post is in the store, published, and has the requested slug, year, month and day; NotFound exactly when no stored post matches all of them |
| PostDetail.DetailFoundIffAddressed | blog/views.py:38-42 | with slugs unique per publish day, a post is found exactly when some published post matches, and any failure is NotFound |
| PostDetail.ActiveComments | blog/views.py:45 | a comment is listed exactly when it belongs to the post and is active |
| PostDetail.SubmitComment | blog/views.py:60-74 | a comment is created exactly on a POST with a valid form; it carries the form's fields, is attached to this post and appended to the store; otherwise the store is unchanged |
| PostDetail.SubmitCommentListed | blog/views.py:62-72 | after a submission a post's listed comments are the previous ones plus the new comment when it is attached to that post and active; every other post's list is unchanged, and an invalid or GET request changes no list |
| PostDetail.PostDetailView | blog/views.py:37-92 | NotFound exactly when no published post matches the URL; shown comments are active comments of the found post, on a normalised page of at most 3; a comment is saved only on a valid POST; at most 4 similar posts, each published, other than the post, sharing a tag with it |
| Similar.Candidates | blog/views.py:78-80 | a post is a candidate exactly when it is in the store, published, has a different id from the source and shares at least one tag with it |
| Similar.Insert | blog/views.py:84 | inserting into a ranked list keeps it ranked and adds exactly that one post (as a multiset) |
| Similar.SortByRank | blog/views.py:84 | the result is a permutation of the candidates ordered by shared-tag count descending, then publish date descending |
| Similar.RankedPrefix | blog/views.py:84 | the first n entries of a ranked list stay ranked and rank at or above every entry cut off |
| Similar.SimilarPosts | blog/views.py:78-84 | min(4, candidates) entries, each a published non-source post sharing a tag; ranked by shared tags then date; an entry sharing more tags precedes one sharing fewer; every candidate left out ranks no higher than every entry kept |
| Similar.SimilarDistinct | blog/views.py:84 | with distinct stored posts, no post is recommended twice |
| Similar.MoreSharedTagsListed | blog/views.py:84 | a candidate sharing more tags than some recommended post is itself recommended, whatever the dates |
| PostShare.ParseSubjectInverts | blog/views.py:110 | when the name has no `(` and the email no `)`, parsing the composed subject gives back name, email and title |
| PostShare.ParseSubjectSound | blog/views.py:110 | any line the subject parser accepts is exactly the subject composed from the fields it returns, and those fields meet the decoding restriction |
| PostShare.SubjectInjective | blog/views.py:110 | within that restriction, different senders or titles never produce the same subject |
| PostShare.ParseMessageInverts | blog/views.py:112 | when the title has no `"`, the url no line break and the name no apostrophe, parsing the composed message gives back title, url, name and comments |
| PostShare.ParseMessageSound | blog/views.py:112 | any text the message parser accepts is exactly the message composed from the fields it returns, and those fields meet the decoding restriction |
| PostShare.ComposeMail | blog/views.py:108-115 | the mail goes from admin@myblog.com to exactly the form's recipient, with subject `name (email) recommends you reading "title"` and message `Read "title" at url`, blank line, `name's comments: comments`; within the decoding restrictions both parse back to the given fields |
| PostShare.PostShareView | blog/views.py:95-125 | NotFound exactly when no published post has the id; a mail is composed and `sent` is true exactly on a POST with a valid form, and the mail is the composed one for that post and its url |
| PostShare.ShareFoundIffPublished | blog/views.py:97 | with unique ids, the share view finds the post exactly when the id names a published post |

## Left out

- `PostListView` (blog/views.py:129-133): a declarative class-based view with the same published filter and page size 3, but its page handling is Django's `ListView` pagination, which answers a non-integer page (other than `last`) or an out-of-range page with Http404 instead of page 1 or the last page; that class and its pagination are not part of this model.
- `mysite/urls.py`: URL routing and sitemap registration, no logic.
- The subject and message parsers decode only fields free of their separator characters (a name with `(` or an apostrophe, an email with `)`, a title with `"`, a url with a line break); outside that restriction the formats are ambiguous and the model proves only the exact composition.
- Rendering, templates and the `request`/`response` objects. The `ListView`, `DetailView` and `ShareView` records hold only part of the views' template context. These entries are not modelled: the raw `page` token passed to the list and detail templates, the detail view's `comment_form`, the detail view's unpaginated active-comment queryset `object_list` (read at render time, so it can include a comment saved by the same request), the share view's `form`, and its `cd` (the form's cleaned data).
- `send_mail`: the external mail transport; only the `Mail` record handed to it is modelled, and a transport failure is not.
- Form validation internals (`CommentForm`, `EmailPostForm`): validity is the abstract `valid` flag and the cleaned fields are given.
- Parsing of the `page` query string into an integer (Python's `int()` on the string): the token arrives already classified as `Absent`, `NonInteger` or `Int(k)`.
- Time zones and real datetimes: a publish date is (year, month, day, second of the day), and the detail lookup compares the date parts directly.
- The order among similar posts with equal shared-tag count and equal publish date is unspecified in the code; the model keeps store order among them.
- `Count('tags')` after `tags__in` is modelled as the size of the intersection of the two tag sets, each candidate once (Django's grouping by post); this is an assumption about the ORM.
- Query laziness: the paginator counts the comments (and so fixes the page number and page count) when the view asks for the page, before a new comment is saved, but the page's items are read only when the template renders, after the save; the model reads the items from the store as it was before the save.
- The new comment's `active` flag is the Comment model's default, which is not part of this model; it is the parameter `activeDefault`.
- Post fields the views do not use (body, author, created and updated dates) and comment ids and dates are not modelled.

=== FILE: base.dfy ===
/** Small building blocks shared by every view: an optional value, a
    value-or-error result, and order-preserving filtering of sequences
    (the in-memory stand-in for a queryset `.filter(...)`). */
module Base {

  datatype Option<+T> = None | Some(value: T)

  datatype Result<+T, +E> = Ok(value: T) | Err(error: E)

  /** No element occurs twice. */
  predicate Distinct<T(==)>(s: seq<T>)
  {
    forall i, j :: 0 <= i < j < |s| ==> s[i] != s[j]
  }

  /** The elements of `s` that satisfy `keep`, in their original order. */
  function Filter<T(!new,==)>(s: seq<T>, keep: T -> bool): (r: seq<T>)
    ensures |r| <= |s|
    ensures forall x :: x in r <==> x in s && keep(x)
  {
    if |s| == 0 then []
    else if keep(s[0]) then [s[0]] + Filter(s[1..], keep)
    else Filter(s[1..], keep)
  }

  /** Filtering commutes with concatenation, so it keeps the relative order
      of the elements it retains. */
  lemma {:induction false} FilterAppend<T(!new)>(a: seq<T>, b: seq<T>, keep: T -> bool)
    ensures Filter(a + b, keep) == Filter(a, keep) + Filter(b, keep)
  {
    if |a| == 0 {
      assert a + b == b;
    } else {
      assert (a + b)[1..] == a[1..] + b;
      FilterAppend(a[1..], b, keep);
    }
  }

  /** Filtering a sequence without repetitions yields one without repetitions. */
  lemma {:induction false} FilterDistinct<T(!new)>(s: seq<T>, keep: T -> bool)
    requires Distinct(s)
    ensures Distinct(Filter(s, keep))
  {
    if |s| > 0 {
      DistinctTail(s);
      FilterDistinct(s[1..], keep);
      if keep(s[0]) {
        var r := Filter(s[1..], keep);
        assert s[0] !in r;
        var t := [s[0]] + r;
        forall i, j | 0 <= i < j < |t| ensures t[i] != t[j] {
          if i == 0 {
            assert t[j] == r[j - 1];
          } else {
            assert t[i] == r[i - 1] && t[j] == r[j - 1];
          }
        }
      }
    }
  }

  /** When no two positions of `s` both satisfy `keep`, the filter keeps at
      most one element. */
  lemma {:induction false} FilterAtMostOne<T(!new)>(s: seq<T>, keep: T -> bool)
    requires forall i, j :: 0 <= i < j < |s| ==> !(keep(s[i]) && keep(s[j]))
    ensures |Filter(s, keep)| <= 1
  {
    if |s| > 0 {
      FilterAtMostOne(s[1..], keep);
      if keep(s[0]) {
        forall x | x in s[1..] ensures !keep(x) {
          var k :| 0 <= k < |s[1..]| && s[1..][k] == x;
          assert s[k + 1] == x;
        }
        FilterNone(s[1..], keep);
      }
    }
  }

  /** A filter that no element passes yields nothing. */
  lemma {:induction false} FilterNone<T(!new)>(s: seq<T>, keep: T -> bool)
    requires forall x :: x in s ==> !keep(x)
    ensures Filter(s, keep) == []
  {
    if |s| > 0 {
      assert s[0] in s;
      forall x | x in s[1..] ensures !keep(x) {
        assert x in s;
      }
      FilterNone(s[1..], keep);
    }
  }

  /** The tail of a sequence without repetitions has none either, and does
      not contain the head. */
  lemma DistinctTail<T>(s: seq<T>)
    requires |s| > 0
    ensures Distinct(s) ==> Distinct(s[1..]) && s[0] !in s[1..]
  {
  }
}

=== FILE: blog.dfy ===
/** The entities the blog views work on, and the single-object lookup that
    every view uses to turn a query into one record or a 404. */
module Blog {
  import opened Base

  type PostId = int
  type TagId = int

  datatype Status = Draft | Published

  /** A publish timestamp: calendar date plus the second of the day.
      Only the order of timestamps and their date part matter here. */
  datatype DateTime = DateTime(year: int, month: int, day: int, second: int)

  /** `a` is at or after `b` (lexicographic on year, month, day, second). */
  predicate NotBefore(a: DateTime, b: DateTime)
  {
    if a.year != b.year then a.year > b.year
    else if a.month != b.month then a.month > b.month
    else if a.day != b.day then a.day > b.day
    else a.second >= b.second
  }

  /** A tag; tags are shared between posts and referred to by id. */
  datatype Tag = Tag(id: TagId, name: string, slug: string)

  /** A blog post; `tags` is the set of ids of the tags it carries. */
  datatype Post = Post(
    id: PostId,
    title: string,
    slug: string,
    publish: DateTime,
    status: Status,
    tags: set<TagId>)

  /** A reader's comment, owned by the post whose id is `post`. Only active
      comments are shown. */
  datatype Comment = Comment(
    post: PostId,
    name: string,
    email: string,
    body: string,
    active: bool)

  /** The request method: a GET, or a POST carrying a submitted form. */
  datatype Request<F> = Get | Submit(form: F)

  /** Why a lookup did not produce exactly one object. */
  datatype Fault = NotFound | MultipleObjectsReturned

  /** Publicly visible posts, in store order. */
  function PublishedPosts(store: seq<Post>): (r: seq<Post>)
    ensures forall p :: p in r <==> p in store && p.status == Published
  {
    Filter(store, (p: Post) => p.status == Published)
  }

  /** `get_object_or_404` applied to the rows a query matched: exactly one row
      is the object; no row is a 404; several rows raise
      MultipleObjectsReturned (which is not a 404). */
  function GetObjectOr404<T>(matches: seq<T>): (r: Result<T, Fault>)
    ensures r.Ok? <==> |matches| == 1
    ensures r.Ok? ==> r.value in matches && forall x :: x in matches ==> x == r.value
    ensures r == Err(NotFound) <==> |matches| == 0
    ensures r == Err(MultipleObjectsReturned) <==> |matches| > 1
  {
    if |matches| == 0 then Err(NotFound)
    else if |matches| == 1 then Ok(matches[0])
    else Err(MultipleObjectsReturned)
  }

  /** Looks up the object a query describes: the one row of `store` for which
      `wanted` holds, a 404 if none does, an error if several do. */
  function GetOr404<T(!new,==)>(store: seq<T>, wanted: T -> bool): (r: Result<T, Fault>)
    ensures r.Ok? ==> r.value in store && wanted(r.value)
    ensures r.Ok? ==> forall p :: p in store && wanted(p) ==> p == r.value
    ensures r == Err(NotFound) <==> forall p :: p in store ==> !wanted(p)
  {
    var matches := Filter(store, wanted);
    assert |matches| > 0 ==> matches[0] in matches;
    GetObjectOr404(matches)
  }

  /** When no two positions of the store satisfy the query, the lookup never
      raises MultipleObjectsReturned: it finds an object exactly when one matches. */
  lemma {:induction false} GetOr404Unique<T(!new)>(store: seq<T>, wanted: T -> bool)
    requires forall i, j :: 0 <= i < j < |store| ==> !(wanted(store[i]) && wanted(store[j]))
    ensures GetOr404(store, wanted).Ok? <==> exists p :: p in store && wanted(p)
  {
    FilterAtMostOne(store, wanted);
    if exists p :: p in store && wanted(p) {
      var p :| p in store && wanted(p);
      assert p in Filter(store, wanted);
    }
  }
}

=== FILE: pagination.dfy ===
/** The page-number handling both list views share: a paginator with three
    items per page, no orphans and an allowed empty first page, and the
    views' fallback that turns a bad page token into page 1 or the last page. */
module Pagination {
  import opened Base

  /** Page size used by every paginator in the blog views. */
  const PerPage: nat := 3

  /** The `page` query parameter as the paginator sees it. */
  datatype PageToken = Absent | NonInteger | Int(k: int)

  /** The two exceptions the paginator raises for a bad page number. */
  datatype PageError = PageNotAnInteger | EmptyPage

  /** One page: its items, its 1-based number and the page count. */
  datatype Page<T> = Page(items: seq<T>, number: int, numPages: int)

  function Min(a: int, b: int): int
  {
    if a <= b then a else b
  }

  /** Number of pages for `count` items: an empty list still has one page. */
  function NumPages(count: nat): (r: nat)
    ensures r >= 1
    ensures count == 0 ==> r == 1
    ensures count > 0 ==> (r - 1) * PerPage < count <= r * PerPage
  {
    var hits := if count < 1 then 1 else count;
    (hits + PerPage - 1) / PerPage
  }

  /** The paginator's check of a requested page number. */
  function ValidateNumber(token: PageToken, count: nat): (r: Result<int, PageError>)
    ensures r == Err(PageNotAnInteger) <==> !token.Int?
    ensures r.Ok? <==> token.Int? && 1 <= token.k <= NumPages(count)
    ensures r.Ok? ==> r.value == token.k
  {
    match token
    case Absent => Err(PageNotAnInteger)
    case NonInteger => Err(PageNotAnInteger)
    case Int(k) =>
      if k < 1 then Err(EmptyPage)
      else if k > NumPages(count) then Err(EmptyPage)
      else Ok(k)
  }

  /** `paginator.page(token)`: the requested page, or the exception raised. */
  function PageOf<T>(items: seq<T>, token: PageToken): (r: Result<Page<T>, PageError>)
    ensures r.Ok? <==> ValidateNumber(token, |items|).Ok?
    ensures r.Err? ==> r.error == ValidateNumber(token, |items|).error
    ensures r.Ok? ==> r.value.number == token.k && r.value.numPages == NumPages(|items|)
    ensures r.Ok? ==> |r.value.items| <= PerPage
    ensures r.Ok? ==> (token.k - 1) * PerPage + |r.value.items| <= |items|
    ensures r.Ok? ==> forall i :: 0 <= i < |r.value.items| ==>
      r.value.items[i] == items[(token.k - 1) * PerPage + i]
    ensures r.Ok? && token.k < NumPages(|items|) ==> |r.value.items| == PerPage
    ensures r.Ok? && |items| > 0 ==> |r.value.items| > 0
  {
    match ValidateNumber(token, |items|)
    case Err(e) => Err(e)
    case Ok(k) =>
      var bottom := (k - 1) * PerPage;
      var top := Min(bottom + PerPage, |items|);
      Ok(Page(items[bottom..top], k, NumPages(|items|)))
  }

  /** The views' handling of the page token: a token that is not an integer
      gives page 1; an integer the paginator rejects as an empty page gives
      the last page; any other integer gives that page. */
  function NormalisedPage<T>(items: seq<T>, token: PageToken): (r: Page<T>)
    ensures r.numPages == NumPages(|items|)
    ensures 1 <= r.number <= r.numPages
    ensures PageOf(items, Int(r.number)) == Ok(r)
    ensures !token.Int? ==> r.number == 1
    ensures token.Int? && 1 <= token.k <= NumPages(|items|) ==> r.number == token.k
    ensures token.Int? && token.k > NumPages(|items|) ==> r.number == NumPages(|items|)
    ensures token.Int? && token.k < 1 ==> r.number == NumPages(|items|)
    ensures |r.items| <= PerPage
    ensures forall x :: x in r.items ==> x in items
  {
    match PageOf(items, token)
    case Ok(p) => p
    case Err(PageNotAnInteger) => PageOf(items, Int(1)).value
    case Err(EmptyPage) => PageOf(items, Int(NumPages(|items|))).value
  }

  /** The items of pages 1 to `m`, one page after the other. */
  function PagesUpTo<T>(items: seq<T>, m: nat): seq<T>
    requires m <= NumPages(|items|)
  {
    if m == 0 then [] else PagesUpTo(items, m - 1) + PageOf(items, Int(m)).value.items
  }

  /** The first `m` pages hold exactly the first `m * PerPage` items (or all
      of them, when there are fewer). */
  lemma {:induction false} PagesUpToIsPrefix<T>(items: seq<T>, m: nat)
    requires m <= NumPages(|items|)
    ensures PagesUpTo(items, m) == items[..Min(m * PerPage, |items|)]
  {
    if m > 0 {
      PagesUpToIsPrefix(items, m - 1);
      var p := PageOf(items, Int(m)).value;
      var lo := Min((m - 1) * PerPage, |items|);
      var hi := Min(m * PerPage, |items|);
      assert lo == (m - 1) * PerPage;
      assert |p.items| == hi - lo;
      assert items[..hi] == items[..lo] + items[lo..hi];
      assert p.items == items[lo..hi];
    }
  }

  /** The pages partition the list: reading every page in order gives back
      every item exactly once, in order. */
  lemma PagesCoverAll<T>(items: seq<T>)
    ensures PagesUpTo(items, NumPages(|items|)) == items
  {
    PagesUpToIsPrefix(items, NumPages(|items|));
    assert items[..|items|] == items;
  }
}

=== FILE: post_detail.dfy ===
/** The post detail view: look the post up by its date and slug, show its
    active comments three per page, accept a new comment, and recommend
    similar posts. */
module PostDetail {
  import opened Base
  import opened Blog
  import opened Pagination
  import opened Similar

  /** The detail URL (year, month, day, slug) addresses `p`: it is published,
      has that slug, and its publish date falls on that day. */
  predicate Addresses(p: Post, year: int, month: int, day: int, slug: string)
  {
    && p.status == Published
    && p.slug == slug
    && p.publish.year == year
    && p.publish.month == month
    && p.publish.day == day
  }

  /** The post the detail URL addresses, or the lookup's failure. */
  function LookupDetail(store: seq<Post>, year: int, month: int, day: int, slug: string)
    : (r: Result<Post, Fault>)
    ensures r.Ok? ==> r.value in store && Addresses(r.value, year, month, day, slug)
    ensures r == Err(NotFound) <==> forall p :: p in store ==> !Addresses(p, year, month, day, slug)
  {
    GetOr404(store, (p: Post) => Addresses(p, year, month, day, slug))
  }

  /** The slug is unique for the publish date: no two posts of the store
      share a slug and a publish day. */
  predicate UniqueForDate(store: seq<Post>)
  {
    forall i, j :: 0 <= i < j < |store| ==>
      !(store[i].slug == store[j].slug
        && store[i].publish.year == store[j].publish.year
        && store[i].publish.month == store[j].publish.month
        && store[i].publish.day == store[j].publish.day)
  }

  /** With slugs unique per day, the lookup succeeds exactly when some
      published post has that slug and day; any mismatch is a 404. */
  lemma DetailFoundIffAddressed(store: seq<Post>, year: int, month: int, day: int, slug: string)
    requires UniqueForDate(store)
    ensures LookupDetail(store, year, month, day, slug).Ok? <==>
      exists p :: p in store && Addresses(p, year, month, day, slug)
    ensures LookupDetail(store, year, month, day, slug).Err? ==>
      LookupDetail(store, year, month, day, slug) == Err(NotFound)
  {
    GetOr404Unique(store, (p: Post) => Addresses(p, year, month, day, slug));
  }

  /** The comments listed under a post: its own, active ones, in store order. */
  function ActiveComments(comments: seq<Comment>, postId: PostId): (r: seq<Comment>)
    ensures forall c :: c in r <==> c in comments && c.post == postId && c.active
  {
    Filter(comments, (c: Comment) => c.post == postId && c.active)
  }

  /** The submitted comment form: whether it validated, and its fields. */
  datatype CommentForm = CommentForm(valid: bool, name: string, email: string, body: string)

  /** The comment store after the request, and the comment it created. */
  datatype Submission = Submission(comments: seq<Comment>, created: Option<Comment>)

  /** Handles the comment form: on a POST whose form is valid, builds a
      comment from the form, attaches it to `post` and saves it; otherwise
      saves nothing. `activeDefault` is the comment model's default for the
      moderation flag. */
  function SubmitComment(comments: seq<Comment>, post: Post, request: Request<CommentForm>, activeDefault: bool)
    : (r: Submission)
    ensures r.created.Some? <==> request.Submit? && request.form.valid
    ensures r.created.Some? ==>
      && r.comments == comments + [r.created.value]
      && r.created.value.post == post.id
      && r.created.value.name == request.form.name
      && r.created.value.email == request.form.email
      && r.created.value.body == request.form.body
      && r.created.value.active == activeDefault
    ensures r.created.None? ==> r.comments == comments
  {
    match request
    case Get => Submission(comments, None)
    case Submit(form) =>
      if form.valid then
        var c := Comment(post.id, form.name, form.email, form.body, activeDefault);
        Submission(comments + [c], Some(c))
      else Submission(comments, None)
  }

  /** What a submission does to the listed comments: the post's active
      comments gain exactly the new comment (when it is created active),
      and every other post's listed comments stay as they were. */
  lemma SubmitCommentListed(comments: seq<Comment>, post: Post, request: Request<CommentForm>,
                            activeDefault: bool, postId: PostId)
    ensures var r := SubmitComment(comments, post, request, activeDefault);
      ActiveComments(r.comments, postId) ==
        ActiveComments(comments, postId) +
        (if r.created.Some? && activeDefault && postId == post.id then [r.created.value] else [])
  {
    var r := SubmitComment(comments, post, request, activeDefault);
    if r.created.Some? {
      FilterAppend(comments, [r.created.value], (c: Comment) => c.post == postId && c.active);
    }
  }

  /** Everything the detail view renders, and the comment store after it. */
  datatype DetailView = DetailView(
    post: Post,
    comments: Page<Comment>,
    newComment: Option<Comment>,
    similar: seq<Post>,
    commentStore: seq<Comment>)

  /** The whole detail view. The comment page is taken from the store as it
      was before the request's comment is saved. */
  function PostDetailView(posts: seq<Post>, comments: seq<Comment>,
                          year: int, month: int, day: int, slug: string,
                          token: PageToken, request: Request<CommentForm>, activeDefault: bool)
    : (r: Result<DetailView, Fault>)
    ensures r == Err(NotFound) <==> forall p :: p in posts ==> !Addresses(p, year, month, day, slug)
    ensures r.Ok? ==> r.value.post in posts && Addresses(r.value.post, year, month, day, slug)
    ensures r.Ok? ==> forall c :: c in r.value.comments.items ==>
      c in comments && c.post == r.value.post.id && c.active
    ensures r.Ok? ==> r.value.comments == NormalisedPage(ActiveComments(comments, r.value.post.id), token)
    ensures r.Ok? ==> 1 <= r.value.comments.number <= r.value.comments.numPages
    ensures r.Ok? ==> |r.value.comments.items| <= PerPage
    ensures r.Ok? && !token.Int? ==> r.value.comments.number == 1
    ensures r.Ok? && token.Int? && 1 <= token.k <= r.value.comments.numPages ==>
      r.value.comments.number == token.k
    ensures r.Ok? && token.Int? && token.k > r.value.comments.numPages ==>
      r.value.comments.number == r.value.comments.numPages
    ensures r.Ok? && token.Int? && token.k < 1 ==> r.value.comments.number == r.value.comments.numPages
    ensures r.Ok? ==> (r.value.newComment.Some? <==> request.Submit? && request.form.valid)
    ensures r.Ok? && r.value.newComment.Some? ==>
      r.value.newComment.value.post == r.value.post.id &&
      r.value.commentStore == comments + [r.value.newComment.value]
    ensures r.Ok? && r.value.newComment.None? ==> r.value.commentStore == comments
    ensures r.Ok? ==> r.value.similar == SimilarPosts(posts, r.value.post)
    ensures r.Ok? ==> |r.value.similar| <= SimilarLimit
    ensures r.Ok? ==> forall p :: p in r.value.similar ==>
      p in posts && p.status == Published && p.id != r.value.post.id && p.tags * r.value.post.tags != {}
  {
    match LookupDetail(posts, year, month, day, slug)
    case Err(e) => Err(e)
    case Ok(post) =>
      var page := NormalisedPage(ActiveComments(comments, post.id), token);
      var submission := SubmitComment(comments, post, request, activeDefault);
      Ok(DetailView(post, page, submission.created, SimilarPosts(posts, post), submission.comments))
  }
}

=== FILE: post_list.dfy ===
/** The post list view: published posts, optionally narrowed to one tag
    given by its slug, shown three per page. */
module PostList {
  import opened Base
  import opened Blog
  import opened Pagination

  /** The posts the list shows, and the tag it was narrowed to, if any. */
  datatype Listing = Listing(tag: Option<Tag>, posts: seq<Post>)

  /** What the view renders: the selected page and the tag. */
  datatype ListView = ListView(page: Page<Post>, tag: Option<Tag>)

  /** A tag slug narrows the list only when it is given and non-empty
      (the view tests the slug's truthiness). */
  predicate TagRequested(tagSlug: Option<string>)
  {
    tagSlug.Some? && tagSlug.value != ""
  }

  /** The tag whose slug is `slug`, or the lookup's failure. */
  function TagBySlug(tags: seq<Tag>, slug: string): (r: Result<Tag, Fault>)
    ensures r.Ok? ==> r.value in tags && r.value.slug == slug
    ensures r == Err(NotFound) <==> forall t :: t in tags ==> t.slug != slug
  {
    GetOr404(tags, (t: Tag) => t.slug == slug)
  }

  /** The published posts, narrowed to those carrying the requested tag. */
  function ListedPosts(store: seq<Post>, tags: seq<Tag>, tagSlug: Option<string>)
    : (r: Result<Listing, Fault>)
    ensures !TagRequested(tagSlug) ==> r.Ok? && r.value.tag.None?
    ensures TagRequested(tagSlug) ==>
      (r == Err(NotFound) <==> forall t :: t in tags ==> t.slug != tagSlug.value)
    ensures r.Ok? && TagRequested(tagSlug) ==>
      r.value.tag.Some? && r.value.tag.value in tags && r.value.tag.value.slug == tagSlug.value
    ensures r.Ok? ==> forall p :: p in r.value.posts <==>
      p in store && p.status == Published &&
      (r.value.tag.Some? ==> r.value.tag.value.id in p.tags)
  {
    var published := PublishedPosts(store);
    if !TagRequested(tagSlug) then Ok(Listing(None, published))
    else
      match TagBySlug(tags, tagSlug.value)
      case Err(e) => Err(e)
      case Ok(tag) => Ok(Listing(Some(tag), Filter(published, (p: Post) => tag.id in p.tags)))
  }

  /** Tag slugs are unique, so the tag lookup never finds several tags: the
      listing succeeds exactly when no tag is requested or some tag has the slug. */
  lemma ListedFoundIffTag(store: seq<Post>, tags: seq<Tag>, tagSlug: Option<string>)
    requires forall i, j :: 0 <= i < j < |tags| ==> tags[i].slug != tags[j].slug
    ensures ListedPosts(store, tags, tagSlug).Ok? <==>
      (!TagRequested(tagSlug) || exists t :: t in tags && t.slug == tagSlug.value)
  {
    if TagRequested(tagSlug) {
      GetOr404Unique(tags, (t: Tag) => t.slug == tagSlug.value);
    }
  }

  /** The whole view: the listing, then the page the token selects. */
  function PostListView(store: seq<Post>, tags: seq<Tag>, tagSlug: Option<string>, token: PageToken)
    : (r: Result<ListView, Fault>)
    ensures r.Err? <==> ListedPosts(store, tags, tagSlug).Err?
    ensures r.Ok? ==>
      r.value.page == NormalisedPage(ListedPosts(store, tags, tagSlug).value.posts, token) &&
      r.value.tag == ListedPosts(store, tags, tagSlug).value.tag
    ensures r.Ok? ==> r.value.page.numPages == NumPages(|ListedPosts(store, tags, tagSlug).value.posts|)
    ensures r.Ok? ==> 1 <= r.value.page.number <= r.value.page.numPages
    ensures r.Ok? ==> |r.value.page.items| <= PerPage
    ensures r.Ok? ==> forall p :: p in r.value.page.items ==>
      p in store && p.status == Published &&
      (TagRequested(tagSlug) ==> exists t :: t in tags && t.slug == tagSlug.value && t.id in p.tags)
    ensures r.Ok? && !token.Int? ==> r.value.page.number == 1
    ensures r.Ok? && token.Int? && 1 <= token.k <= r.value.page.numPages ==>
      r.value.page.number == token.k
    ensures r.Ok? && token.Int? && token.k > r.value.page.numPages ==>
      r.value.page.number == r.value.page.numPages
    ensures r.Ok? && token.Int? && token.k < 1 ==> r.value.page.number == r.value.page.numPages
  {
    match ListedPosts(store, tags, tagSlug)
    case Err(e) => Err(e)
    case Ok(listing) => Ok(ListView(NormalisedPage(listing.posts, token), listing.tag))
  }
}

=== FILE: post_share.dfy ===
/** The share view: a published post is recommended by email once the share
    form validates. The mail transport is represented by the message it
    would be handed. */
module PostShare {
  import opened Base
  import opened Blog

  /** The sender address every share mail uses. */
  const Sender: string := "admin@myblog.com"

  /** The share form's cleaned fields and whether it validated. */
  datatype ShareForm = ShareForm(valid: bool, name: string, email: string, to: string, comments: string)

  /** What is handed to the mail transport. */
  datatype Mail = Mail(subject: string, message: string, sender: string, recipients: seq<string>)

  /** What the view renders: the post, whether a mail went out, and that mail. */
  datatype ShareView = ShareView(post: Post, sent: bool, mail: Option<Mail>)

  const SubjectMid: string := ") recommends you reading \""
  const MessageLead: string := "Read \""
  const MessageMid: string := "\" at "
  const BlankLine: string := "\n\n"
  const CommentsMid: string := "'s comments: "

  /** `name (email) recommends you reading "title"` */
  function Subject(name: string, email: string, title: string): string
  {
    name + " (" + email + SubjectMid + title + "\""
  }

  /** `Read "title" at url`, a blank line, then `name's comments: comments` */
  function Message(title: string, url: string, name: string, comments: string): string
  {
    MessageLead + title + MessageMid + url + BlankLine + name + CommentsMid + comments
  }

  /** `s` split before the first `c`: a part free of `c`, and the rest,
      which is empty or starts with `c`. */
  function Cut(s: string, c: char): (r: (string, string))
    ensures r.0 + r.1 == s
    ensures c !in r.0
    ensures r.1 == [] || r.1[0] == c
  {
    if |s| == 0 then ("", "")
    else if s[0] == c then ("", s)
    else
      var rest := Cut(s[1..], c);
      assert s == [s[0]] + s[1..];
      ([s[0]] + rest.0, rest.1)
  }

  /** Cutting `a + b` at `c`, where `c` does not occur in `a` and starts `b`,
      gives back `a` and `b`. */
  lemma {:induction false} CutAppend(a: string, b: string, c: char)
    requires c !in a && |b| > 0 && b[0] == c
    ensures Cut(a + b, c) == (a, b)
  {
    if |a| == 0 {
      assert a + b == b;
    } else {
      assert a[0] in a;
      assert (a + b)[1..] == a[1..] + b;
      assert c !in a[1..] by {
        forall k | 0 <= k < |a[1..]| ensures a[1..][k] != c {
          assert a[1..][k] == a[k + 1];
        }
      }
      CutAppend(a[1..], b, c);
      assert [a[0]] + a[1..] == a;
    }
  }

  predicate StartsWith(s: string, prefix: string)
  {
    |prefix| <= |s| && s[..|prefix|] == prefix
  }

  /** One field of a formatted line: the text before the first `stop`,
      provided the separator `sep` starts there, and what follows `sep`. */
  function Field(s: string, stop: char, sep: string): (r: Option<(string, string)>)
    ensures r.Some? ==> stop !in r.value.0 && s == r.value.0 + sep + r.value.1
  {
    var cut := Cut(s, stop);
    if StartsWith(cut.1, sep) then
      assert cut.1 == sep + cut.1[|sep|..];
      Some((cut.0, cut.1[|sep|..]))
    else None
  }

  /** A field free of `stop`, followed by a separator starting with `stop`,
      is read back exactly. */
  lemma FieldAppend(f: string, sep: string, rest: string, stop: char)
    requires stop !in f && |sep| > 0 && sep[0] == stop
    ensures Field(f + sep + rest, stop, sep) == Some((f, rest))
  {
    assert f + sep + rest == f + (sep + rest);
    CutAppend(f, sep + rest, stop);
    assert (sep + rest)[..|sep|] == sep;
    assert (sep + rest)[|sep|..] == rest;
  }

  /** Reads name, email and title back from a subject line, or fails when
      the line does not have the subject's shape. The name ends at the first
      `(`, the email at the first `)` after it. */
  function ParseSubject(s: string): Option<(string, string, string)>
  {
    match Field(s, '(', "(")
    case None => None
    case Some((head, r1)) =>
      if |head| == 0 || head[|head| - 1] != ' ' then None
      else
        match Field(r1, ')', SubjectMid)
        case None => None
        case Some((email, r2)) =>
          if |r2| == 0 || r2[|r2| - 1] != '"' then None
          else Some((head[..|head| - 1], email, r2[..|r2| - 1]))
  }

  /** Reads title, url, name and comments back from a message, or fails when
      it does not have the message's shape. The title ends at the first `"`,
      the url at the first line break, the name at the first apostrophe. */
  function ParseMessage(m: string): Option<(string, string, string, string)>
  {
    if !StartsWith(m, MessageLead) then None
    else
      match Field(m[|MessageLead|..], '"', MessageMid)
      case None => None
      case Some((title, r1)) =>
        match Field(r1, '\n', BlankLine)
        case None => None
        case Some((url, r2)) =>
          match Field(r2, '\'', CommentsMid)
          case None => None
          case Some((name, comments)) => Some((title, url, name, comments))
  }

  /** A subject can be decoded when the name has no `(` and the email no `)`. */
  predicate SubjectDecodable(name: string, email: string)
  {
    '(' !in name && ')' !in email
  }

  /** A message can be decoded when the title has no `"`, the url no line
      break and the name no apostrophe. */
  predicate MessageDecodable(title: string, url: string, name: string)
  {
    '"' !in title && '\n' !in url && '\'' !in name
  }

  /** Decoding a composed subject gives back its fields. */
  lemma ParseSubjectInverts(name: string, email: string, title: string)
    ensures SubjectDecodable(name, email) ==>
      ParseSubject(Subject(name, email, title)) == Some((name, email, title))
  {
    if SubjectDecodable(name, email) {
      var r2 := title + "\"";
      var r1 := email + SubjectMid + r2;
      assert Subject(name, email, title) == (name + " ") + "(" + r1;
      assert '(' !in name + " ";
      FieldAppend(name + " ", "(", r1, '(');
      FieldAppend(email, SubjectMid, r2, ')');
      assert (name + " ")[..|name|] == name;
      assert r2[..|r2| - 1] == title;
    }
  }

  /** Whatever decodes as a subject is exactly the subject of the decoded
      fields, and those fields are decodable. */
  lemma ParseSubjectSound(s: string)
    ensures ParseSubject(s).Some? ==>
      var f := ParseSubject(s).value;
      SubjectDecodable(f.0, f.1) && Subject(f.0, f.1, f.2) == s
  {
    if ParseSubject(s).Some? {
      var f1 := Field(s, '(', "(").value;
      var f2 := Field(f1.1, ')', SubjectMid).value;
      var head := f1.0;
      var name := head[..|head| - 1];
      var email := f2.0;
      var title := f2.1[..|f2.1| - 1];
      assert ParseSubject(s) == Some((name, email, title));
      SubjectShape(s, head, f1.1, name, email, f2.1, title);
    }
  }

  /** Reassembles a subject from the pieces its parser found. */
  lemma SubjectShape(s: string, head: string, r1: string, name: string, email: string, r2: string, title: string)
    requires s == head + "(" + r1 && r1 == email + SubjectMid + r2
    requires |head| > 0 && head[|head| - 1] == ' ' && name == head[..|head| - 1] && '(' !in head
    requires |r2| > 0 && r2[|r2| - 1] == '"' && title == r2[..|r2| - 1] && ')' !in email
    ensures SubjectDecodable(name, email) && Subject(name, email, title) == s
  {
    assert head == name + " ";
    assert r2 == title + "\"";
    assert '(' !in name by {
      forall k | 0 <= k < |name| ensures name[k] != '(' {
        assert name[k] == head[k];
      }
    }
    assert " (" == " " + "(";
  }

  /** Within the decodable fields the subject determines its fields: two
      different senders or titles never produce the same subject. */
  lemma SubjectInjective(n1: string, e1: string, t1: string, n2: string, e2: string, t2: string)
    requires SubjectDecodable(n1, e1) && SubjectDecodable(n2, e2)
    requires Subject(n1, e1, t1) == Subject(n2, e2, t2)
    ensures n1 == n2 && e1 == e2 && t1 == t2
  {
    ParseSubjectInverts(n1, e1, t1);
    ParseSubjectInverts(n2, e2, t2);
  }

  /** Decoding a composed message gives back its fields. */
  lemma ParseMessageInverts(title: string, url: string, name: string, comments: string)
    ensures MessageDecodable(title, url, name) ==>
      ParseMessage(Message(title, url, name, comments)) == Some((title, url, name, comments))
  {
    if MessageDecodable(title, url, name) {
      var r2 := name + CommentsMid + comments;
      var r1 := url + BlankLine + r2;
      var m := Message(title, url, name, comments);
      assert m == MessageLead + (title + MessageMid + r1);
      assert m[..|MessageLead|] == MessageLead;
      assert m[|MessageLead|..] == title + MessageMid + r1;
      FieldAppend(title, MessageMid, r1, '"');
      FieldAppend(url, BlankLine, r2, '\n');
      FieldAppend(name, CommentsMid, comments, '\'');
    }
  }

  /** Whatever decodes as a message is exactly the message of the decoded
      fields, and those fields are decodable. */
  lemma ParseMessageSound(m: string)
    ensures ParseMessage(m).Some? ==>
      var f := ParseMessage(m).value;
      MessageDecodable(f.0, f.1, f.2) && Message(f.0, f.1, f.2, f.3) == m
  {
    if ParseMessage(m).Some? {
      var f1 := Field(m[|MessageLead|..], '"', MessageMid).value;
      var f2 := Field(f1.1, '\n', BlankLine).value;
      var f3 := Field(f2.1, '\'', CommentsMid).value;
      assert ParseMessage(m) == Some((f1.0, f2.0, f3.0, f3.1));
      assert MessageDecodable(f1.0, f2.0, f3.0);
      MessageShape(m, f1.0, f1.1, f2.0, f2.1, f3.0, f3.1);
    }
  }

  /** Reassembles a message from the pieces its parser found. */
  lemma MessageShape(m: string, title: string, r1: string, url: string, r2: string, name: string, comments: string)
    requires StartsWith(m, MessageLead) && m[|MessageLead|..] == title + MessageMid + r1
    requires r1 == url + BlankLine + r2 && r2 == name + CommentsMid + comments
    ensures Message(title, url, name, comments) == m
  {
    assert m == MessageLead + m[|MessageLead|..];
  }

  /** The mail a valid share form produces for a post titled `title` whose
      absolute address is `url`. */
  function ComposeMail(form: ShareForm, title: string, url: string): (m: Mail)
    ensures m.sender == Sender && m.recipients == [form.to]
    ensures m.subject == Subject(form.name, form.email, title)
    ensures m.message == Message(title, url, form.name, form.comments)
    ensures SubjectDecodable(form.name, form.email) ==>
      ParseSubject(m.subject) == Some((form.name, form.email, title))
    ensures MessageDecodable(title, url, form.name) ==>
      ParseMessage(m.message) == Some((title, url, form.name, form.comments))
  {
    ParseSubjectInverts(form.name, form.email, title);
    ParseMessageInverts(title, url, form.name, form.comments);
    Mail(Subject(form.name, form.email, title), Message(title, url, form.name, form.comments), Sender, [form.to])
  }

  /** The whole share view: look up the published post by id, and on a POST
      with a valid form compose and send the mail. `urlOf` gives a post's
      absolute address. */
  function PostShareView(store: seq<Post>, postId: PostId, request: Request<ShareForm>, urlOf: Post -> string)
    : (r: Result<ShareView, Fault>)
    ensures r == Err(NotFound) <==> forall p :: p in store ==> !(p.id == postId && p.status == Published)
    ensures r.Ok? ==> r.value.post in store && r.value.post.id == postId && r.value.post.status == Published
    ensures r.Ok? ==> (r.value.sent <==> request.Submit? && request.form.valid)
    ensures r.Ok? ==> (r.value.mail.Some? <==> r.value.sent)
    ensures r.Ok? && r.value.sent ==>
      r.value.mail.value == ComposeMail(request.form, r.value.post.title, urlOf(r.value.post))
  {
    match GetOr404(store, (p: Post) => p.id == postId && p.status == Published)
    case Err(e) => Err(e)
    case Ok(post) =>
      match request
      case Get => Ok(ShareView(post, false, None))
      case Submit(form) =>
        if form.valid then Ok(ShareView(post, true, Some(ComposeMail(form, post.title, urlOf(post)))))
        else Ok(ShareView(post, false, None))
  }

  /** Primary keys are unique, so the share lookup never finds several posts:
      it succeeds exactly when the id names a published post. */
  lemma ShareFoundIffPublished(store: seq<Post>, postId: PostId, request: Request<ShareForm>, urlOf: Post -> string)
    requires forall i, j :: 0 <= i < j < |store| ==> store[i].id != store[j].id
    ensures PostShareView(store, postId, request, urlOf).Ok? <==>
      exists p :: p in store && p.id == postId && p.status == Published
  {
    GetOr404Unique(store, (p: Post) => p.id == postId && p.status == Published);
  }
}

=== FILE: similar.dfy ===
/** Similar-post recommendations for a post: other published posts that
    share a tag with it, most shared tags first, newest first among equals,
    at most four. */
module Similar {
  import opened Base
  import opened Blog

  /** How many similar posts the detail view shows. */
  const SimilarLimit: nat := 4

  /** The number of the source's tags that `p` also carries (the view's
      `same_tags` annotation). */
  function SharedTags(p: Post, srcTags: set<TagId>): nat
  {
    |p.tags * srcTags|
  }

  /** `a` may be listed before `b`: it shares more tags, or as many and was
      published no earlier. */
  predicate RanksAbove(a: Post, b: Post, srcTags: set<TagId>)
  {
    SharedTags(a, srcTags) > SharedTags(b, srcTags)
    || (SharedTags(a, srcTags) == SharedTags(b, srcTags) && NotBefore(a.publish, b.publish))
  }

  lemma RanksAboveTotal(a: Post, b: Post, srcTags: set<TagId>)
    ensures RanksAbove(a, b, srcTags) || RanksAbove(b, a, srcTags)
  {
  }

  /** Every earlier element may be listed before every later one. */
  predicate Ranked(s: seq<Post>, srcTags: set<TagId>)
  {
    forall i, j :: 0 <= i < j < |s| ==> RanksAbove(s[i], s[j], srcTags)
  }

  /** A post the query considers: published, not the source itself (by id),
      and sharing at least one tag with it. */
  predicate IsCandidate(p: Post, src: Post)
  {
    p.status == Published && p.id != src.id && p.tags * src.tags != {}
  }

  /** The candidates, each store row once, in store order. */
  function Candidates(store: seq<Post>, src: Post): (r: seq<Post>)
    ensures forall p :: p in r <==> p in store && IsCandidate(p, src)
  {
    Filter(store, (p: Post) => IsCandidate(p, src))
  }

  /** Prefixing an element that ranks above every element keeps a sequence ranked. */
  lemma ConsRanked(h: Post, s: seq<Post>, srcTags: set<TagId>)
    requires Ranked(s, srcTags)
    requires forall y :: y in s ==> RanksAbove(h, y, srcTags)
    ensures Ranked([h] + s, srcTags)
  {
  }

  /** Prefixing an element absent from a sequence without repetitions keeps
      it without repetitions. */
  lemma ConsDistinct(h: Post, s: seq<Post>)
    ensures Distinct(s) && h !in s ==> Distinct([h] + s)
  {
  }

  /** An element ranking above the head of a ranked sequence ranks above all of it. */
  lemma AboveHeadAboveAll(x: Post, s: seq<Post>, srcTags: set<TagId>)
    requires Ranked(s, srcTags) && |s| > 0 && RanksAbove(x, s[0], srcTags)
    ensures forall y :: y in s ==> RanksAbove(x, y, srcTags)
  {
  }

  /** The head of a ranked sequence ranks above every element of its tail. */
  lemma HeadAboveTail(s: seq<Post>, srcTags: set<TagId>)
    requires Ranked(s, srcTags) && |s| > 0
    ensures Ranked(s[1..], srcTags)
    ensures forall y :: y in s[1..] ==> RanksAbove(s[0], y, srcTags)
  {
  }

  /** Puts `x` into a ranked sequence, before the first element it ranks at
      or above (so before the elements it ties with). */
  function Insert(x: Post, s: seq<Post>, srcTags: set<TagId>): (r: seq<Post>)
    requires Ranked(s, srcTags)
    ensures Ranked(r, srcTags)
    ensures forall y :: y in r <==> y == x || y in s
    ensures multiset(r) == multiset(s) + multiset{x}
    ensures |r| == |s| + 1
    ensures Distinct(s) && x !in s ==> Distinct(r)
  {
    if |s| == 0 then [x]
    else if RanksAbove(x, s[0], srcTags) then
      AboveHeadAboveAll(x, s, srcTags);
      ConsRanked(x, s, srcTags);
      ConsDistinct(x, s);
      [x] + s
    else
      assert s == [s[0]] + s[1..];
      HeadAboveTail(s, srcTags);
      var rest := Insert(x, s[1..], srcTags);
      RanksAboveTotal(x, s[0], srcTags);
      ConsRanked(s[0], rest, srcTags);
      DistinctTail(s);
      ConsDistinct(s[0], rest);
      [s[0]] + rest
  }

  /** The candidates in ranking order (a permutation of the input). */
  function SortByRank(s: seq<Post>, srcTags: set<TagId>): (r: seq<Post>)
    ensures Ranked(r, srcTags)
    ensures multiset(r) == multiset(s)
    ensures |r| == |s|
    ensures forall y :: y in r <==> y in s
    ensures Distinct(s) ==> Distinct(r)
  {
    if |s| == 0 then []
    else
      assert s == [s[0]] + s[1..];
      Insert(s[0], SortByRank(s[1..], srcTags), srcTags)
  }

  /** The first `n` elements of a ranked sequence are ranked, and rank above
      every element left out. */
  lemma RankedPrefix(sorted: seq<Post>, n: nat, srcTags: set<TagId>)
    requires Ranked(sorted, srcTags) && n <= |sorted|
    ensures Ranked(sorted[..n], srcTags)
    ensures forall i, j :: (0 <= i < n && 0 <= j < n &&
      SharedTags(sorted[..n][i], srcTags) > SharedTags(sorted[..n][j], srcTags)) ==> i < j
    ensures multiset(sorted[..n]) <= multiset(sorted)
    ensures forall p :: p in sorted[..n] ==> p in sorted
    ensures forall c :: c in sorted && c !in sorted[..n] ==>
      forall p :: p in sorted[..n] ==> RanksAbove(p, c, srcTags)
  {
    assert sorted == sorted[..n] + sorted[n..];
    assert multiset(sorted) == multiset(sorted[..n]) + multiset(sorted[n..]);
    forall c | c in sorted && c !in sorted[..n]
      ensures forall p :: p in sorted[..n] ==> RanksAbove(p, c, srcTags)
    {
      var j :| 0 <= j < |sorted| && sorted[j] == c;
      forall p | p in sorted[..n] ensures RanksAbove(p, c, srcTags) {
        var i :| 0 <= i < n && sorted[..n][i] == p;
        assert sorted[i] == p;
      }
    }
  }

  /** The view's `similar_posts`: the candidates ranked by shared tags and
      then publish date, cut to the first four. */
  function SimilarPosts(store: seq<Post>, src: Post): (r: seq<Post>)
    ensures |r| == if |Candidates(store, src)| < SimilarLimit then |Candidates(store, src)| else SimilarLimit
    ensures forall p :: p in r ==> p in store && IsCandidate(p, src)
    ensures multiset(r) <= multiset(Candidates(store, src))
    ensures Ranked(r, src.tags)
    ensures forall i, j :: (0 <= i < |r| && 0 <= j < |r| &&
      SharedTags(r[i], src.tags) > SharedTags(r[j], src.tags)) ==> i < j
    ensures forall c :: c in store && IsCandidate(c, src) && c !in r ==>
      forall p :: p in r ==> RanksAbove(p, c, src.tags)
  {
    var candidates := Candidates(store, src);
    var sorted := SortByRank(candidates, src.tags);
    var n := if |sorted| < SimilarLimit then |sorted| else SimilarLimit;
    RankedPrefix(sorted, n, src.tags);
    sorted[..n]
  }

  /** Posts have distinct primary keys, so no recommendation is listed twice. */
  lemma SimilarDistinct(store: seq<Post>, src: Post)
    requires Distinct(store)
    ensures Distinct(SimilarPosts(store, src))
  {
    FilterDistinct(store, (p: Post) => IsCandidate(p, src));
    var sorted := SortByRank(Candidates(store, src), src.tags);
    var r := SimilarPosts(store, src);
    assert r == sorted[..|r|];
    forall i, j | 0 <= i < j < |r| ensures r[i] != r[j] {
      assert r[i] == sorted[i] && r[j] == sorted[j];
    }
  }

  /** A candidate sharing more tags than some recommended post is itself
      recommended, whatever the publish dates. */
  lemma MoreSharedTagsListed(store: seq<Post>, src: Post, c: Post, p: Post)
    requires c in store && IsCandidate(c, src)
    requires p in SimilarPosts(store, src)
    requires SharedTags(c, src.tags) > SharedTags(p, src.tags)
    ensures c in SimilarPosts(store, src)
  {
  }
}
